=== FILE: README.md ===
# Custom sentiment-analysis preprocessor, modelled in Dafny

This project models `CustomSaPreprocessor` from `tutorial/custom_sa/preprocess.py`:

- **Vocabulary construction** (`build_vocab`). Every sentence is tokenized and the
  tokens are counted in a `Counter`. An `OrderedDict` is seeded with `<pad>` and
  `<unk>`. The `vocab_size - 2` most common tokens are then assigned into it. The
  ordered keys become a torchtext vocabulary with contiguous indices from 0, and
  the default index is set to 1.
- **Fixed-length encoding** (`__call__`). The id of `<pad>` is looked up first.
  Then each sentence is tokenized and every token is mapped to its id. A sentence
  with fewer than `seq_len` tokens is left-padded with the `<pad>` id. Any other
  sentence keeps only its first `seq_len` ids. The result has one row per sentence,
  in input order.

Modules, one per concept:

| file | module | contents |
|---|---|---|
| `wrappers.dfy` | `Wrappers` | `Option` and `Result` |
| `corpus.dfy` | `Corpus` | tokens, the tokenizer type, the scan-order token stream, occurrence counts and first occurrences |
| `counting.dfy` | `Counting` | the `Counter` and `most_common` (a stable sort by descending count, then a prefix) |
| `counting.dfy` | `Ranking` | the reference order "most frequent first, ties by first occurrence" and the proofs that `most_common` follows it |
| `vocabulary.dfy` | `Vocabulary` | the vocabulary, lookup with a default, OrderedDict key assignment, `build_vocab` |
| `encoding.dfy` | `Encoding` | the preprocessor, lookup of a sentence, padding and truncation, `__call__` |
| `examples.dfy` | `Examples` | the worked examples with a whitespace tokenizer |

Modelling choices:

- The tokenizer is a function parameter `string -> seq<string>`.
- The vocabulary is its token list plus an optional default index. The token at
  position `i` has index `i`. A missing token looks up to the default index. When no
  default is set, the lookup fails, and the model reports that as `KeyMissing`.
- `Counter.most_common(n)` returns the keys sorted by descending count, and the sort
  is stable, so ties keep the Counter's insertion order. The model writes this as an
  insertion sort. `Ranking.SortRanks` proves that the result orders tokens by count,
  with ties broken by first occurrence in the corpus scan. Zero or a negative `n`
  selects nothing.
- `torchtext.vocab.vocab(od)` keeps every key whose value is at least 1 (its
  `min_freq`), in order. Every value assigned in `build_vocab` is at least 1, so
  the vocabulary keys are exactly the OrderedDict's keys.
- `NewPreprocessor` keeps the constructor's defaults: no tokenizer passed, and
  `seq_len = 100`. The default word tokenizer, when installed, is its second argument.
- `seq_len` is an unbounded `int`. The truncation branch uses Python's `ids[:seq_len]`,
  so a negative `seq_len` drops ids from the end.
- A preprocessor built without a tokenizer, when the default word tokenizer is not
  installed, has none (`tokenizer == None`). The source then fails on the first
  sentence it encodes. The model reports `NoTokenizer` at that point. The `<pad>`
  lookup comes first, so an empty batch still succeeds.

Behaviours of the code worth knowing:

- `build_vocab` raises nothing when `vocab_size < 2`. The vocabulary is then just
  `<pad>` and `<unk>`.
- `__call__` does not reject `seq_len < 1`.
- A missing tokenizer is only logged at construction. It fails later, at use.
- The padding id 0 appears in a truncated row exactly when the literal token `<pad>`
  is among the sentence's first `seq_len` tokens. A `<pad>` in the part that is cut
  off leaves no trace (`Encoding.TruncatedRowPad`).
- If `<pad>` or `<unk>` occurs in the corpus often enough to be among the
  `vocab_size - 2` selected tokens, it takes a place in the selection but adds no new
  key, so the vocabulary has fewer than `vocab_size` entries. A special string that
  is not selected costs nothing.

## Model

| member | source | states |
|---|---|---|
| `Counting.Add` | tutorial/custom_sa/preprocess.py:52 | counting one token raises its count by one and leaves every other count alone; a first-seen token becomes a key |
| `Counting.UpdateTallies` | tutorial/custom_sa/preprocess.py:52 | `corpus.update(tokens)` on a Counter that tallies a stream leaves it tallying that stream followed by the tokens |
| `Counting.CountCorpus` | tutorial/custom_sa/preprocess.py:49-52 | the Counter after the scan has each corpus token once as a key, in first-occurrence order, with its true number of occurrences |
| `Counting.SortByCount` | tutorial/custom_sa/preprocess.py:58 | the ordering step of `most_common` is a permutation of the keys with counts never increasing |
| `Counting.MostCommon` | tutorial/custom_sa/preprocess.py:58 | `most_common(n)` yields `min(n, #keys)` keys (none for `n <= 0`), no key more often than in the Counter, with counts never increasing |
| `Ranking.SortRanks` | tutorial/custom_sa/preprocess.py:49-58 | the stable sort of first-occurrence-ordered keys puts a token before another when it is more frequent, or equally frequent and seen first |
| `Ranking.MostCommonSelects` | tutorial/custom_sa/preprocess.py:58-60 | `most_common(n)` picks corpus tokens best first, `min(n, #distinct tokens)` of them, and every corpus token it leaves out is outranked by every token it picks |
| `Vocabulary.Lookup` | tutorial/custom_sa/preprocess.py:61-62 | a present token's index points back to it; an absent token gets the default index, or fails when none is set |
| `Vocabulary.LookupContiguous` | tutorial/custom_sa/preprocess.py:61 | over distinct keys, the key at position `i` looks up to exactly `i` |
| `Vocabulary.SetKeysAppendsNew` | tutorial/custom_sa/preprocess.py:55-60 | assigning distinct tokens into the OrderedDict appends, in order, only those that were not keys; existing keys keep their positions |
| `Vocabulary.BuildVocab` | tutorial/custom_sa/preprocess.py:47-64 | the vocabulary starts with `<pad>` at 0 and `<unk>` at 1, every absent token looks up to 1, no token appears twice, the size is at most `max(vocab_size, 2)`, and every other key is a corpus token |
| `Vocabulary.BuildVocabRanked` | tutorial/custom_sa/preprocess.py:49-60 | the keys after the specials are in frequency order with first-occurrence tie-break, and every corpus token left out is outranked by, so no more frequent than, every key kept |
| `Vocabulary.BuildVocabSize` | tutorial/custom_sa/preprocess.py:55-61 | `vocab_size < 2` gives only the two specials; without special strings in the corpus the size is `2 + min(vocab_size - 2, #distinct tokens)`; when `vocab_size - 2` covers the distinct tokens, all of them are in the vocabulary |
| `Vocabulary.SelectedSpecialsShrink` | tutorial/custom_sa/preprocess.py:55-61 | the vocabulary is the specials together with the selected tokens, each once; for `vocab_size >= 2` it has exactly `vocab_size` entries if and only if the corpus has at least `vocab_size - 2` distinct tokens and neither `<pad>` nor `<unk>` is selected |
| `Vocabulary.ReservedInCorpusShrinks` | tutorial/custom_sa/preprocess.py:55-60 | when all distinct tokens fit, the size is the number of distinct tokens together with the specials, so a corpus containing `<pad>` or `<unk>` gives fewer than `vocab_size` entries |
| `Encoding.NewPreprocessor` | tutorial/custom_sa/preprocess.py:13-28 | the constructed preprocessor tokenizes with the passed tokenizer when there is one, otherwise with the default word tokenizer when it is installed, and looks the tokens up in the given vocabulary; it fails a sentence for want of a tokenizer exactly when neither a tokenizer nor the default is available; its successful rows have length `seq_len` for `seq_len >= 0` |
| `Encoding.MissingTokenizerFailsAtUse` | tutorial/custom_sa/preprocess.py:18-35 | built with neither a passed tokenizer nor the default word tokenizer, a non-empty batch whose `<pad>` lookup succeeds fails for want of a tokenizer; built with either, the call never fails that way |
| `Encoding.Repeat` | tutorial/custom_sa/preprocess.py:39-40 | the padding block is exactly `n` copies of the pad id |
| `Encoding.Prefix` | tutorial/custom_sa/preprocess.py:43 | Python's `ids[:stop]` is a prefix of `ids`: all of it when `stop` reaches the end, `stop` ids when `0 <= stop <= len`, and a negative `stop` drops that many trailing ids (all of them when `-stop >= len`) |
| `Encoding.Fit` | tutorial/custom_sa/preprocess.py:37-43 | for `seq_len >= 0` the row has length exactly `seq_len`; a short sentence gives `seq_len - n` pad ids followed by its `n` ids; a long one gives a prefix of its ids; every entry is the pad id or one of the ids |
| `Encoding.LookupAll` | tutorial/custom_sa/preprocess.py:36 | succeeds exactly when every token looks up, then gives one id per token in order; otherwise fails with the first token that does not look up |
| `Encoding.SentenceIds` | tutorial/custom_sa/preprocess.py:35-36 | without a tokenizer the sentence fails with `NoTokenizer`; with one it succeeds exactly when every token looks up, giving one id per token in order, and otherwise fails on a token of the sentence |
| `Encoding.EncodeRows` | tutorial/custom_sa/preprocess.py:33-44 | succeeds exactly when every sentence's ids can be formed, then gives one fitted row per sentence in input order; otherwise reports the error of the first failing sentence |
| `Encoding.Encode` | tutorial/custom_sa/preprocess.py:30-45 | a vocabulary without `<pad>` and without a default fails first; otherwise the call succeeds exactly when every sentence encodes, with one row per sentence, each the fitted ids of that sentence and, when `seq_len >= 0`, of length `seq_len` |
| `Encoding.EncodePlacesTokens` | tutorial/custom_sa/preprocess.py:36-43 | the `k`-th token of a sentence, when kept, sits at `k + max(0, seq_len - n)` in its row and carries its vocabulary id |
| `Encoding.BuiltVocabEncodes` | tutorial/custom_sa/preprocess.py:31-36 | with a vocabulary from `build_vocab`, encoding never fails and every id is below the vocabulary size |
| `Encoding.TruncatedRowPad` | tutorial/custom_sa/preprocess.py:36-43 | under a built vocabulary, a sentence with at least `seq_len` tokens encodes, and its row holds the id 0 if and only if a literal `<pad>` is among the tokens the row keeps, the first `seq_len` when `seq_len >= 0` |
| `Examples.VocabExample` | tutorial/custom_sa/preprocess.py:47-64 | corpus `["a a a", "b b", "c"]` with `vocab_size = 4` gives `<pad>:0, <unk>:1, a:2, b:3` |
| `Examples.PadExample` | tutorial/custom_sa/preprocess.py:30-45 | encoding `"a a c"` with `seq_len = 5` under that vocabulary gives `[0, 0, 2, 2, 1]` |
| `Examples.TruncateExample` | tutorial/custom_sa/preprocess.py:42-43 | encoding `"a a a"` with `seq_len = 2` gives `[2, 2]` |
| `Examples.DefaultsExample` | tutorial/custom_sa/preprocess.py:13-28 | `CustomSaPreprocessor(vocab)` keeps 100 ids per row and falls back to the default word tokenizer |
| `Examples.UnselectedSpecialExample` | tutorial/custom_sa/preprocess.py:49-61 | a scan `a a <pad>` with `vocab_size = 3` still gives three keys, `<pad>, <unk>, a`, because the literal `<pad>` is not selected |
| `Examples.MissingPadExample` | tutorial/custom_sa/preprocess.py:31 | a vocabulary without `<pad>` and without a default fails on the pad lookup, even for an empty batch |
| `Examples.NoTokenizerExample` | tutorial/custom_sa/preprocess.py:33-35 | without a tokenizer an empty batch encodes to no rows and a non-empty one fails |

## Left out

- `save_vocab` (tutorial/custom_sa/preprocess.py:66-68): it writes the vocabulary to a file with `torch.save`. That is file I/O in an opaque serialization format, so there is nothing here to state a load-after-save identity about.
- Conversion of the rows to `torch.IntTensor` (tutorial/custom_sa/preprocess.py:45): the rows are modelled as `seq<seq<int>>`. The 32-bit range of the tensor is not modelled. Neither is the tensor's rejection of rows of unequal length, which only arises when `seq_len` is negative.
- The import of the default word tokenizer and the logged error when it is missing (tutorial/custom_sa/preprocess.py:18-28): the tokenizer is a parameter. The default tokenizer is an `Option` argument to `NewPreprocessor`. The log message is not modelled.
- Tokenization itself: the tokenizer is any caller-supplied function. The examples use a space splitter, which agrees with `str.split()` on the example texts.
- The count values stored in the OrderedDict: only their order and the fact that each is at least 1 matter to torchtext, so the model keeps only the keys.

=== FILE: corpus.dfy ===
/** Tokens, the token stream a corpus scan produces, and the counting and
    first-occurrence notions that the rest of the model is specified against. */
module Corpus {

  type Token = string

  /** The tokenizer the caller supplies: any total function from a sentence to tokens. */
  type Tokenizer = string -> seq<Token>

  /** The two reserved vocabulary entries. */
  const PadToken: Token := "<pad>"
  const UnkToken: Token := "<unk>"

  function Min(a: int, b: int): int { if a <= b then a else b }

  function Max(a: int, b: int): int { if a >= b then a else b }

  /** Every token of every sentence, sentence by sentence, in scan order. */
  function Stream(sentences: seq<string>, tokenize: Tokenizer): seq<Token>
  {
    if |sentences| == 0 then []
    else Stream(sentences[..|sentences| - 1], tokenize) + tokenize(sentences[|sentences| - 1])
  }

  /** How many times `t` occurs in `s`. */
  function Occurrences(s: seq<Token>, t: Token): nat {
    multiset(s)[t]
  }

  /** The distinct tokens of `s`. */
  function Types(s: seq<Token>): set<Token> {
    set t | t in s
  }

  predicate Distinct(s: seq<Token>) {
    forall i, j :: 0 <= i < j < |s| ==> s[i] != s[j]
  }

  /** Position of the first occurrence of `t` in `s`, or `|s|` when `t` does not occur. */
  function FirstIndex(s: seq<Token>, t: Token): (i: nat)
    ensures i <= |s|
    ensures i < |s| <==> t in s
    ensures i < |s| ==> s[i] == t
    ensures forall k :: 0 <= k < i ==> s[k] != t
  {
    if |s| == 0 then 0
    else if s[0] == t then 0
    else 1 + FirstIndex(s[1..], t)
  }

  /** Appending to a stream leaves the first occurrences of the tokens already in it alone. */
  lemma {:induction false} FirstIndexAppend(s: seq<Token>, x: Token, u: Token)
    ensures u in s ==> FirstIndex(s + [x], u) == FirstIndex(s, u)
    ensures u !in s && u == x ==> FirstIndex(s + [x], u) == |s|
  {
    var i := FirstIndex(s, u);
    var j := FirstIndex(s + [x], u);
    if u in s {
      assert (s + [x])[i] == u;
      assert j <= i;
      assert s[j] == u;
    } else if u == x {
      assert (s + [x])[|s|] == u;
      assert forall k :: 0 <= k < |s| ==> (s + [x])[k] != u;
    }
  }

  /** A sequence without repetitions has as many elements as distinct tokens. */
  lemma {:induction false} DistinctTypes(s: seq<Token>)
    requires Distinct(s)
    ensures |Types(s)| == |s|
  {
    if |s| > 0 {
      var init := s[..|s| - 1];
      var last := s[|s| - 1];
      assert Distinct(init);
      DistinctTypes(init);
      assert last !in init by {
        forall k | 0 <= k < |init| ensures init[k] != last {
          assert s[k] != s[|s| - 1];
        }
      }
      assert s == init + [last];
      assert Types(s) == Types(init) + {last};
    }
  }
}

=== FILE: counting.dfy ===
/** The frequency count of a corpus (`collections.Counter` as `build_vocab` uses it)
    and `most_common`, the stable selection of the most frequent tokens. */
module Counting {
  import opened Corpus

  /** A Counter: its keys in insertion order and a count per key; an absent key counts 0. */
  datatype Counter = Counter(keys: seq<Token>, counts: map<Token, nat>) {
    function Get(t: Token): nat {
      if t in counts then counts[t] else 0
    }
  }

  const Empty: Counter := Counter([], map[])

  /** `c` is the state of a Counter that has been fed exactly the tokens of `stream`:
      each token once as a key, keys in order of first occurrence, and true counts. */
  ghost predicate Tallies(c: Counter, stream: seq<Token>) {
    && Distinct(c.keys)
    && (forall t :: t in c.keys <==> t in stream)
    && (forall t :: c.Get(t) == Occurrences(stream, t))
    && (forall i, j :: 0 <= i < j < |c.keys| ==>
          FirstIndex(stream, c.keys[i]) < FirstIndex(stream, c.keys[j]))
  }

  /** One element of `Counter.update`: bump the count of `t`, adding `t` as the last
      key when it is seen for the first time. */
  function Add(c: Counter, t: Token): (r: Counter)
    ensures r.Get(t) == c.Get(t) + 1
    ensures forall u :: u != t ==> r.Get(u) == c.Get(u)
    ensures t in r.keys
    ensures c.keys <= r.keys && |r.keys| <= |c.keys| + 1
  {
    Counter(if t in c.keys then c.keys else c.keys + [t], c.counts[t := c.Get(t) + 1])
  }

  lemma {:induction false} AddTallies(c: Counter, stream: seq<Token>, t: Token)
    requires Tallies(c, stream)
    ensures Tallies(Add(c, t), stream + [t])
  {
    var r := Add(c, t);
    var s := stream + [t];
    forall u
      ensures u in r.keys <==> u in s
    {
    }
    forall u
      ensures r.Get(u) == Occurrences(s, u)
    {
      assert multiset(s) == multiset(stream) + multiset{t};
    }
    forall u | u in stream
      ensures FirstIndex(s, u) == FirstIndex(stream, u)
    {
      FirstIndexAppend(stream, t, u);
    }
    if t !in c.keys {
      FirstIndexAppend(stream, t, t);
      forall i | 0 <= i < |c.keys|
        ensures FirstIndex(s, c.keys[i]) < FirstIndex(s, t)
      {
        assert c.keys[i] in stream;
      }
    }
  }

  /** `Counter.update(tokens)`: add the tokens one by one, in order. */
  function Update(c: Counter, tokens: seq<Token>): Counter
  {
    if |tokens| == 0 then c
    else Add(Update(c, tokens[..|tokens| - 1]), tokens[|tokens| - 1])
  }

  lemma {:induction false} UpdateTallies(c: Counter, stream: seq<Token>, tokens: seq<Token>)
    requires Tallies(c, stream)
    ensures Tallies(Update(c, tokens), stream + tokens)
  {
    if |tokens| == 0 {
      assert stream + tokens == stream;
    } else {
      var init := tokens[..|tokens| - 1];
      var last := tokens[|tokens| - 1];
      var prior := Update(c, init);
      assert Update(c, tokens) == Add(prior, last);
      assert stream + tokens == (stream + init) + [last];
      UpdateTallies(c, stream, init);
      AddTallies(prior, stream + init, last);
    }
  }

  /** The Counter `build_vocab` fills: each sentence is tokenized and its tokens added. */
  function CountCorpus(sentences: seq<string>, tokenize: Tokenizer): (c: Counter)
    ensures Tallies(c, Stream(sentences, tokenize))
  {
    if |sentences| == 0 then Empty
    else
      var init := sentences[..|sentences| - 1];
      var prior := CountCorpus(init, tokenize);
      UpdateTallies(prior, Stream(init, tokenize), tokenize(sentences[|sentences| - 1]));
      Update(prior, tokenize(sentences[|sentences| - 1]))
  }

  /** Counts never increase along `s`. */
  predicate ByCount(c: Counter, s: seq<Token>) {
    forall i, j :: 0 <= i < j < |s| ==> c.Get(s[i]) >= c.Get(s[j])
  }

  /** A token whose count bounds every count of a count-ordered sequence can head it. */
  lemma ConsByCount(c: Counter, x: Token, s: seq<Token>)
    requires ByCount(c, s)
    requires forall k :: 0 <= k < |s| ==> c.Get(s[k]) <= c.Get(x)
    ensures ByCount(c, [x] + s)
  {
  }

  /** Every element of `rest`, drawn from the tail of `sorted` and `t`, counts no more
      than the head of `sorted` when `t` counts less than that head. */
  lemma {:induction false} BoundedByHead(c: Counter, sorted: seq<Token>, t: Token, rest: seq<Token>)
    requires ByCount(c, sorted) && |sorted| > 0 && c.Get(t) < c.Get(sorted[0])
    requires multiset(rest) == multiset(sorted[1..]) + multiset{t}
    ensures forall k :: 0 <= k < |rest| ==> c.Get(rest[k]) <= c.Get(sorted[0])
  {
    forall k | 0 <= k < |rest| ensures c.Get(rest[k]) <= c.Get(sorted[0]) {
      assert rest[k] in multiset(rest);
      if rest[k] != t {
        assert rest[k] in multiset(sorted[1..]);
        var m :| 0 <= m < |sorted[1..]| && sorted[1..][m] == rest[k];
        assert sorted[m + 1] == rest[k];
      }
    }
  }

  /** Places `t`, which came before every element of `sorted` in the input, ahead of the
      first element whose count does not exceed its own, so that ties keep input order. */
  function Insert(c: Counter, t: Token, sorted: seq<Token>): (r: seq<Token>)
    requires ByCount(c, sorted)
    ensures multiset(r) == multiset(sorted) + multiset{t}
    ensures ByCount(c, r)
  {
    if |sorted| == 0 || c.Get(sorted[0]) <= c.Get(t) then
      ConsByCount(c, t, sorted);
      [t] + sorted
    else
      var rest := Insert(c, t, sorted[1..]);
      BoundedByHead(c, sorted, t, rest);
      ConsByCount(c, sorted[0], rest);
      assert sorted == [sorted[0]] + sorted[1..];
      [sorted[0]] + rest
  }

  /** `sorted(keys, key=count, reverse=True)`: a stable sort by descending count. */
  function SortByCount(c: Counter, keys: seq<Token>): (r: seq<Token>)
    ensures multiset(r) == multiset(keys)
    ensures ByCount(c, r)
  {
    if |keys| == 0 then []
    else
      assert keys == [keys[0]] + keys[1..];
      Insert(c, keys[0], SortByCount(c, keys[1..]))
  }

  /** `most_common(n)`: the first `n` keys by descending count, ties in insertion order;
      nothing at all when `n` is zero or negative. */
  function MostCommon(c: Counter, n: int): (r: seq<Token>)
    ensures |r| == if n <= 0 then 0 else Min(n, |c.keys|)
    ensures multiset(r) <= multiset(c.keys)
    ensures ByCount(c, r)
  {
    if n <= 0 then []
    else
      var sorted := SortByCount(c, c.keys);
      assert |sorted| == |multiset(sorted)| == |c.keys|;
      assert sorted == sorted[..Min(n, |sorted|)] + sorted[Min(n, |sorted|)..];
      sorted[..Min(n, |sorted|)]
  }
}

module Ranking {
  import opened Corpus
  import opened Counting

  /** `a` precedes `b` in "most frequent first, ties broken by first occurrence in the scan". */
  ghost predicate Outranks(stream: seq<Token>, a: Token, b: Token) {
    || Occurrences(stream, a) > Occurrences(stream, b)
    || (Occurrences(stream, a) == Occurrences(stream, b) && FirstIndex(stream, a) < FirstIndex(stream, b))
  }

  /** Every element of `s` outranks every later one. */
  ghost predicate Ranked(stream: seq<Token>, s: seq<Token>) {
    forall i, j :: 0 <= i < j < |s| ==> Outranks(stream, s[i], s[j])
  }

  /** Position of an element known to be in `s`. */
  lemma {:induction false} ElementAt(s: seq<Token>, x: Token) returns (m: nat)
    requires x in multiset(s)
    ensures m < |s| && s[m] == x
  {
    assert x in s;
    m :| 0 <= m < |s| && s[m] == x;
  }

  /** A token that outranks every element of a ranked sequence can head it. */
  lemma ConsRanked(stream: seq<Token>, x: Token, s: seq<Token>)
    requires Ranked(stream, s)
    requires forall k :: 0 <= k < |s| ==> Outranks(stream, x, s[k])
    ensures Ranked(stream, [x] + s)
  {
  }

  lemma {:induction false} InsertRanks(c: Counter, t: Token, sorted: seq<Token>, stream: seq<Token>)
    requires ByCount(c, sorted)
    requires forall u :: c.Get(u) == Occurrences(stream, u)
    requires Ranked(stream, sorted)
    requires forall k :: 0 <= k < |sorted| ==> FirstIndex(stream, t) < FirstIndex(stream, sorted[k])
    ensures Ranked(stream, Insert(c, t, sorted))
  {
    if |sorted| == 0 || c.Get(sorted[0]) <= c.Get(t) {
      forall k | 0 <= k < |sorted| ensures Outranks(stream, t, sorted[k]) {
        assert c.Get(sorted[0]) >= c.Get(sorted[k]);
        assert c.Get(t) >= c.Get(sorted[k]);
      }
      ConsRanked(stream, t, sorted);
    } else {
      var rest := Insert(c, t, sorted[1..]);
      InsertRanks(c, t, sorted[1..], stream);
      forall k | 0 <= k < |rest| ensures Outranks(stream, sorted[0], rest[k]) {
        assert rest[k] in multiset(rest);
        if rest[k] != t {
          var m := ElementAt(sorted[1..], rest[k]);
          assert sorted[m + 1] == rest[k];
        } else {
          assert c.Get(sorted[0]) > c.Get(t);
        }
      }
      ConsRanked(stream, sorted[0], rest);
    }
  }

  /** On keys in first-occurrence order with true counts, the stable sort by descending
      count is exactly the order "most frequent first, ties by first occurrence". */
  lemma {:induction false} SortRanks(c: Counter, keys: seq<Token>, stream: seq<Token>)
    requires forall u :: c.Get(u) == Occurrences(stream, u)
    requires forall i, j :: 0 <= i < j < |keys| ==> FirstIndex(stream, keys[i]) < FirstIndex(stream, keys[j])
    ensures Ranked(stream, SortByCount(c, keys))
  {
    if |keys| > 0 {
      var s := SortByCount(c, keys[1..]);
      SortRanks(c, keys[1..], stream);
      forall k | 0 <= k < |s| ensures FirstIndex(stream, keys[0]) < FirstIndex(stream, s[k]) {
        assert s[k] in multiset(s);
        var m := ElementAt(keys[1..], s[k]);
        assert keys[m + 1] == s[k];
      }
      InsertRanks(c, keys[0], s, stream);
    }
  }

  lemma RankedDistinct(stream: seq<Token>, s: seq<Token>)
    requires Ranked(stream, s)
    ensures Distinct(s)
  {
  }

  /** A prefix of a ranked sequence is ranked and outranks the rest of the sequence. */
  lemma PrefixRanked(stream: seq<Token>, sorted: seq<Token>, k: nat)
    requires Ranked(stream, sorted)
    requires k <= |sorted|
    ensures Ranked(stream, sorted[..k])
    ensures forall i, t :: 0 <= i < k && t in sorted && t !in sorted[..k] ==> Outranks(stream, sorted[i], t)
  {
  }

  /** How many tokens `most_common(n)` yields over a fully counted corpus, all from it. */
  lemma {:induction false} MostCommonSize(c: Counter, stream: seq<Token>, n: int)
    requires Distinct(c.keys)
    requires forall t :: t in c.keys <==> t in stream
    ensures |MostCommon(c, n)| == if n <= 0 then 0 else Min(n, |Types(stream)|)
    ensures forall t :: t in MostCommon(c, n) ==> t in stream
  {
    var r := MostCommon(c, n);
    DistinctTypes(c.keys);
    assert Types(c.keys) == Types(stream);
    forall t | t in r ensures t in stream {
      assert t in multiset(r);
    }
  }

  /** The order and the margin of `most_common(n)` over a fully counted corpus. */
  lemma {:induction false} MostCommonOrder(c: Counter, stream: seq<Token>, n: int)
    requires forall t :: t in c.keys <==> t in stream
    requires forall u :: c.Get(u) == Occurrences(stream, u)
    requires forall i, j :: 0 <= i < j < |c.keys| ==> FirstIndex(stream, c.keys[i]) < FirstIndex(stream, c.keys[j])
    ensures Ranked(stream, MostCommon(c, n))
    ensures forall i, t :: 0 <= i < |MostCommon(c, n)| && t in stream && t !in MostCommon(c, n) ==>
              Outranks(stream, MostCommon(c, n)[i], t)
  {
    var r := MostCommon(c, n);
    if n > 0 {
      var sorted := SortByCount(c, c.keys);
      SortRanks(c, c.keys, stream);
      assert |sorted| == |multiset(sorted)| == |c.keys|;
      var k := Min(n, |sorted|);
      assert r == sorted[..k];
      PrefixRanked(stream, sorted, k);
      forall t | t in stream ensures t in sorted {
        assert t in multiset(c.keys);
      }
    }
  }

  /** Over a fully counted corpus, `most_common(n)` picks the `n` best tokens (all of
      them when there are fewer), best first, and every token it leaves out is outranked
      by every token it picks. */
  lemma {:induction false} MostCommonSelects(c: Counter, stream: seq<Token>, n: int)
    requires Tallies(c, stream)
    ensures Ranked(stream, MostCommon(c, n))
    ensures Distinct(MostCommon(c, n))
    ensures |MostCommon(c, n)| == if n <= 0 then 0 else Min(n, |Types(stream)|)
    ensures forall t :: t in MostCommon(c, n) ==> t in stream
    ensures forall i, t :: 0 <= i < |MostCommon(c, n)| && t in stream && t !in MostCommon(c, n) ==>
              Outranks(stream, MostCommon(c, n)[i], t)
  {
    MostCommonSize(c, stream, n);
    MostCommonOrder(c, stream, n);
    RankedDistinct(stream, MostCommon(c, n));
  }
}

=== FILE: encoding.dfy ===
/** `CustomSaPreprocessor.__call__`: every sentence becomes a row of exactly `seq_len`
    token ids, left-padded with the `<pad>` id or cut to its first `seq_len` ids. */
module Encoding {
  import opened Wrappers
  import opened Corpus
  import opened Vocabulary

  /** A lookup in a vocabulary without a default index failed, or no tokenizer is set. */
  datatype Error = KeyMissing(token: Token) | NoTokenizer

  /** A configured preprocessor. `tokenizer` is `None` when none was passed and the
      default word tokenizer could not be imported. */
  datatype Preprocessor = Preprocessor(vocab: Vocab, tokenizer: Option<Tokenizer>, seqLen: int)

  /** `CustomSaPreprocessor(vocab, tokenizer=None, seq_len=100)`: a passed tokenizer is
      used as given; otherwise the default word tokenizer, when it is installed
      (`wordTokenizer`). */
  function NewPreprocessor(vocab: Vocab, wordTokenizer: Option<Tokenizer>,
                           tokenizer: Option<Tokenizer> := None, seqLen: int := 100): (p: Preprocessor)
    ensures tokenizer.Some? ==> forall s :: SentenceIds(p, s) == LookupAll(vocab, tokenizer.value(s))
    ensures tokenizer.None? && wordTokenizer.Some? ==>
              forall s :: SentenceIds(p, s) == LookupAll(vocab, wordTokenizer.value(s))
    ensures forall s :: SentenceIds(p, s) == Err(NoTokenizer) <==> tokenizer.None? && wordTokenizer.None?
    ensures seqLen >= 0 ==> forall sentences :: Encode(p, sentences).Ok? ==>
              forall i :: 0 <= i < |sentences| ==> |Encode(p, sentences).value[i]| == seqLen
  {
    Preprocessor(vocab, if tokenizer.Some? then tokenizer else wordTokenizer, seqLen)
  }

  /** `n` copies of `x`. */
  function Repeat(x: int, n: nat): (r: seq<int>)
    ensures |r| == n
    ensures forall k :: 0 <= k < n ==> r[k] == x
  {
    if n == 0 then [] else [x] + Repeat(x, n - 1)
  }

  /** Python's `s[:stop]`: a negative `stop` counts back from the end. */
  function Prefix(s: seq<int>, stop: int): (r: seq<int>)
    ensures r <= s
    ensures stop >= |s| ==> r == s
    ensures 0 <= stop <= |s| ==> |r| == stop
    ensures stop < 0 ==> |s| - |r| == Min(-stop, |s|)
  {
    s[..if stop >= 0 then Min(stop, |s|) else Max(0, |s| + stop)]
  }

  /** The per-sentence length policy: fewer ids than `seqLen` are left-padded with
      `padId`; otherwise only the first `seqLen` ids are kept. */
  function Fit(ids: seq<int>, padId: int, seqLen: int): (row: seq<int>)
    ensures seqLen >= 0 ==> |row| == seqLen
    ensures |ids| < seqLen ==> forall k :: 0 <= k < seqLen - |ids| ==> row[k] == padId
    ensures |ids| < seqLen ==> row[seqLen - |ids|..] == ids
    ensures seqLen <= |ids| ==> row <= ids
    ensures seqLen < 0 ==> |row| == Max(0, |ids| + seqLen)
    ensures forall k :: 0 <= k < |row| ==> row[k] == padId || row[k] in ids
  {
    if |ids| < seqLen then Repeat(padId, seqLen - |ids|) + ids
    else Prefix(ids, seqLen)
  }

  /** `[vocab[w] for w in tokens]`: the ids in token order, or the failure of the first
      token the vocabulary cannot look up. */
  function LookupAll(v: Vocab, tokens: seq<Token>): (r: Result<seq<int>, Error>)
    ensures r.Ok? <==> forall k :: 0 <= k < |tokens| ==> Lookup(v, tokens[k]).Some?
    ensures r.Ok? ==> |r.value| == |tokens|
    ensures r.Ok? ==> forall k :: 0 <= k < |tokens| ==> Lookup(v, tokens[k]) == Some(r.value[k])
    ensures r.Err? ==> r.error.KeyMissing? && r.error.token in tokens && Lookup(v, r.error.token).None?
    ensures r.Err? ==> forall k :: 0 <= k < FirstIndex(tokens, r.error.token) ==> Lookup(v, tokens[k]).Some?
  {
    if |tokens| == 0 then Ok([])
    else match Lookup(v, tokens[0])
      case None => Err(KeyMissing(tokens[0]))
      case Some(id) =>
        match LookupAll(v, tokens[1..])
        case Err(e) => Err(e)
        case Ok(rest) => Ok([id] + rest)
  }

  /** The ids of one sentence: tokenize it, then look every token up. */
  function SentenceIds(p: Preprocessor, sentence: string): (r: Result<seq<int>, Error>)
    ensures p.tokenizer.None? ==> r == Err(NoTokenizer)
    ensures p.tokenizer.Some? ==>
              (r.Ok? <==> forall t :: t in p.tokenizer.value(sentence) ==> Lookup(p.vocab, t).Some?)
    ensures r.Ok? ==> p.tokenizer.Some? && |r.value| == |p.tokenizer.value(sentence)|
    ensures r.Ok? ==> forall k :: 0 <= k < |r.value| ==> Lookup(p.vocab, p.tokenizer.value(sentence)[k]) == Some(r.value[k])
    ensures r.Err? && p.tokenizer.Some? ==> r.error.KeyMissing? && r.error.token in p.tokenizer.value(sentence)
  {
    match p.tokenizer
    case None => Err(NoTokenizer)
    case Some(tokenize) => LookupAll(p.vocab, tokenize(sentence))
  }

  /** The loop of `__call__`: one fitted row per sentence, in input order; the first
      sentence that fails stops the batch with its error. */
  function EncodeRows(p: Preprocessor, padId: int, sentences: seq<string>): (r: Result<seq<seq<int>>, Error>)
    ensures r.Ok? <==> forall i :: 0 <= i < |sentences| ==> SentenceIds(p, sentences[i]).Ok?
    ensures r.Ok? ==> |r.value| == |sentences|
    ensures r.Ok? ==> forall i :: 0 <= i < |sentences| ==>
              r.value[i] == Fit(SentenceIds(p, sentences[i]).value, padId, p.seqLen)
    ensures r.Err? ==> exists i :: (0 <= i < |sentences| && SentenceIds(p, sentences[i]) == Err(r.error) &&
                                    forall j :: 0 <= j < i ==> SentenceIds(p, sentences[j]).Ok?)
  {
    if |sentences| == 0 then Ok([])
    else match SentenceIds(p, sentences[0])
      case Err(e) => Err(e)
      case Ok(ids) =>
        match EncodeRows(p, padId, sentences[1..])
        case Err(e) =>
          ghost var i :| 0 <= i < |sentences[1..]| && SentenceIds(p, sentences[1..][i]) == Err(e) &&
            forall j :: 0 <= j < i ==> SentenceIds(p, sentences[1..][j]).Ok?;
          assert SentenceIds(p, sentences[i + 1]) == Err(e);
          Err(e)
        case Ok(rows) => Ok([Fit(ids, padId, p.seqLen)] + rows)
  }

  /** `preprocessor(sentences)`: the `<pad>` id is looked up first, then every sentence
      is encoded. */
  function Encode(p: Preprocessor, sentences: seq<string>): (r: Result<seq<seq<int>>, Error>)
    ensures Lookup(p.vocab, PadToken).None? ==> r == Err(KeyMissing(PadToken))
    ensures r.Ok? <==> (Lookup(p.vocab, PadToken).Some? &&
                        forall i :: 0 <= i < |sentences| ==> SentenceIds(p, sentences[i]).Ok?)
    ensures r.Ok? ==> |r.value| == |sentences|
    ensures r.Ok? ==> forall i :: 0 <= i < |sentences| ==>
              r.value[i] == Fit(SentenceIds(p, sentences[i]).value, Lookup(p.vocab, PadToken).value, p.seqLen)
    ensures r.Ok? && p.seqLen >= 0 ==> forall i :: 0 <= i < |sentences| ==> |r.value[i]| == p.seqLen
  {
    match Lookup(p.vocab, PadToken)
    case None => Err(KeyMissing(PadToken))
    case Some(padId) => EncodeRows(p, padId, sentences)
  }

  /** Where each token lands: for `seqLen >= 0`, the `k`-th token of a sentence (when it
      is kept) sits after the padding, at `k + max(0, seqLen - n)`, with its vocabulary id. */
  lemma EncodePlacesTokens(p: Preprocessor, sentences: seq<string>, i: nat, k: nat)
    requires Encode(p, sentences).Ok? && p.seqLen >= 0
    requires i < |sentences| && p.tokenizer.Some?
    requires k < |p.tokenizer.value(sentences[i])| && k < p.seqLen
    ensures Some(Encode(p, sentences).value[i][k + Max(0, p.seqLen - |p.tokenizer.value(sentences[i])|)]) ==
            Lookup(p.vocab, p.tokenizer.value(sentences[i])[k])
  {
  }

  /** Every id of every row is an index below `size`. */
  predicate IdsBelow(rows: seq<seq<int>>, size: int) {
    forall i, k :: 0 <= i < |rows| && 0 <= k < |rows[i]| ==> 0 <= rows[i][k] < size
  }

  /** With a vocabulary from `build_vocab` and any tokenizer, encoding cannot fail, and
      every id in every row is a valid index of that vocabulary. */
  lemma BuiltVocabEncodes(corpus: seq<string>, buildWith: Tokenizer, vocabSize: int,
                          tokenize: Tokenizer, seqLen: int, sentences: seq<string>)
    ensures Encode(Preprocessor(BuildVocab(corpus, buildWith, vocabSize), Some(tokenize), seqLen), sentences).Ok?
    ensures IdsBelow(Encode(Preprocessor(BuildVocab(corpus, buildWith, vocabSize), Some(tokenize), seqLen), sentences).value,
                     |BuildVocab(corpus, buildWith, vocabSize).tokens|)
  {
  }

  /** Under a vocabulary from `build_vocab` only `<pad>` looks up to 0. */
  lemma BuiltLookupZero(v: Vocab, corpus: seq<string>, buildWith: Tokenizer, vocabSize: int)
    requires v == BuildVocab(corpus, buildWith, vocabSize)
    ensures forall t :: Lookup(v, t) == Some(0) <==> t == PadToken
  {
  }

  /** When only `<pad>` looks up to 0, a prefix of a sentence's ids holds 0 exactly when
      the matching prefix of its tokens holds `<pad>`. */
  lemma KeptPad(v: Vocab, tokens: seq<Token>, ids: seq<int>, row: seq<int>)
    requires forall t :: Lookup(v, t) == Some(0) <==> t == PadToken
    requires |ids| == |tokens| && forall k :: 0 <= k < |tokens| ==> Lookup(v, tokens[k]) == Some(ids[k])
    requires row <= ids
    ensures 0 in row <==> PadToken in tokens[..|row|]
  {
  }

  /** A sentence with at least `seq_len` tokens is cut, not padded, so under a vocabulary
      from `build_vocab` its row holds the id 0 exactly when a literal `<pad>` is among
      the tokens the row keeps (the first `seq_len` of them when `seq_len >= 0`). */
  lemma {:induction false} TruncatedRowPad(corpus: seq<string>, buildWith: Tokenizer, vocabSize: int,
                                           tokenize: Tokenizer, seqLen: int, sentences: seq<string>, i: nat)
    requires i < |sentences| && |tokenize(sentences[i])| >= seqLen
    ensures Encode(Preprocessor(BuildVocab(corpus, buildWith, vocabSize), Some(tokenize), seqLen), sentences).Ok?
    ensures seqLen >= 0 ==>
              |Encode(Preprocessor(BuildVocab(corpus, buildWith, vocabSize), Some(tokenize), seqLen), sentences).value[i]| == seqLen
    ensures var row := Encode(Preprocessor(BuildVocab(corpus, buildWith, vocabSize), Some(tokenize), seqLen), sentences).value[i];
            |row| <= |tokenize(sentences[i])| && (0 in row <==> PadToken in tokenize(sentences[i])[..|row|])
  {
    var v := BuildVocab(corpus, buildWith, vocabSize);
    var p := Preprocessor(v, Some(tokenize), seqLen);
    BuiltVocabEncodes(corpus, buildWith, vocabSize, tokenize, seqLen, sentences);
    var r := Encode(p, sentences);
    var ids := SentenceIds(p, sentences[i]).value;
    assert r.value[i] == Fit(ids, 0, seqLen);
    BuiltLookupZero(v, corpus, buildWith, vocabSize);
    KeptPad(v, tokenize(sentences[i]), ids, r.value[i]);
  }

  /** A preprocessor built with neither a tokenizer nor the default word tokenizer fails
      on the first sentence it is given, once the `<pad>` lookup has succeeded; one built
      with either never fails for want of a tokenizer. */
  lemma MissingTokenizerFailsAtUse(vocab: Vocab, wordTokenizer: Option<Tokenizer>,
                                   tokenizer: Option<Tokenizer>, seqLen: int, sentences: seq<string>)
    ensures tokenizer.None? && wordTokenizer.None? && Lookup(vocab, PadToken).Some? && |sentences| > 0 ==>
              Encode(NewPreprocessor(vocab, wordTokenizer, tokenizer, seqLen), sentences) == Err(NoTokenizer)
    ensures tokenizer.Some? || wordTokenizer.Some? ==>
              Encode(NewPreprocessor(vocab, wordTokenizer, tokenizer, seqLen), sentences) != Err(NoTokenizer)
  {
  }
}

=== FILE: examples.dfy ===
/** The worked examples of the preprocessor, with a whitespace tokenizer. */
module Examples {
  import opened Wrappers
  import opened Corpus
  import opened Counting
  import opened Ranking
  import opened Vocabulary
  import opened Encoding

  /** Splits on single spaces and drops empty pieces: `str.split()` on the example texts. */
  function Words(s: string, current: string): seq<Token>
    decreases |s|
  {
    if |s| == 0 then (if current == [] then [] else [current])
    else if s[0] == ' ' then (if current == [] then [] else [current]) + Words(s[1..], [])
    else Words(s[1..], current + [s[0]])
  }

  /** The tokenizer of the examples. */
  function Whitespace(s: string): seq<Token> {
    Words(s, [])
  }

  /** A one-character word splits to itself. */
  lemma WordsSingle(c: char)
    requires c != ' '
    ensures Words([c], []) == [[c]]
  {
    assert [c][1..] == [];
    assert [] + [[c][0]] == [c];
  }

  /** A one-character word followed by a space is split off the front. */
  lemma WordsCons(c: char, rest: string)
    requires c != ' '
    ensures Words([c, ' '] + rest, []) == [[c]] + Words(rest, [])
  {
    var s := [c, ' '] + rest;
    assert s[1..] == [' '] + rest;
    assert s[1..][1..] == rest;
    assert [] + [s[0]] == [c];
  }

  /** The example corpus. */
  const Corpus3: seq<string> := ["a a a", "b b", "c"]

  /** The scan of the example corpus. */
  lemma TokenizeExample()
    ensures Stream(Corpus3, Whitespace) == ["a", "a", "a", "b", "b", "c"]
  {
    WordsSingle('a');
    WordsSingle('b');
    WordsSingle('c');
    WordsCons('a', "a");
    WordsCons('a', "a a");
    WordsCons('b', "b");
    assert "a a" == ['a', ' '] + "a";
    assert "a a a" == ['a', ' '] + "a a";
    assert "b b" == ['b', ' '] + "b";
    assert Whitespace("a a a") == ["a", "a", "a"];
    assert Whitespace("b b") == ["b", "b"];
    assert Whitespace("c") == ["c"];
    var one: seq<string> := ["a a a"];
    var two: seq<string> := ["a a a", "b b"];
    assert one[..0] == [];
    assert Stream(one, Whitespace) == ["a", "a", "a"];
    assert two[..1] == one;
    assert Stream(two, Whitespace) == ["a", "a", "a", "b", "b"];
    assert Corpus3[..2] == two;
  }

  /** The counts of the example corpus. */
  lemma CountExample(stream: seq<Token>)
    requires stream == ["a", "a", "a", "b", "b", "c"]
    ensures Occurrences(stream, "a") == 3
    ensures Occurrences(stream, "b") == 2
    ensures Occurrences(stream, "c") == 1
    ensures forall t :: t in stream ==> t == "a" || t == "b" || t == "c"
    ensures |Types(stream)| == 3
  {
    assert Types(stream) == {"a", "b", "c"};
    assert multiset(stream) == multiset{"a", "a", "a", "b", "b", "c"};
  }

  /** Two tokens picked best first from the example corpus, beating the one left out. */
  lemma PickExample(stream: seq<Token>, top: seq<Token>)
    requires stream == ["a", "a", "a", "b", "b", "c"]
    requires |top| == 2 && Ranked(stream, top)
    requires forall t :: t in top ==> t in stream
    requires forall i, t :: 0 <= i < |top| && t in stream && t !in top ==> Outranks(stream, top[i], t)
    ensures top == ["a", "b"]
  {
    CountExample(stream);
    var first, second := top[0], top[1];
    assert Outranks(stream, first, second);
    assert first in stream && second in stream;
    assert "a" in stream && "b" in stream && "c" in stream;
    assert "a" in top || Outranks(stream, first, "a");
    assert "b" in top || Outranks(stream, second, "b");
  }

  /** Any corpus whose scan yields the example tokens selects `a` then `b`. */
  lemma TopOfExampleStream(sentences: seq<string>, tokenize: Tokenizer)
    requires Stream(sentences, tokenize) == ["a", "a", "a", "b", "b", "c"]
    ensures Top(sentences, tokenize, 4) == ["a", "b"]
  {
    var stream := Stream(sentences, tokenize);
    MostCommonSelects(CountCorpus(sentences, tokenize), stream, 2);
    CountExample(stream);
    PickExample(stream, Top(sentences, tokenize, 4));
  }

  /** Keying `a` then `b` after the specials. */
  lemma ExampleKeys()
    ensures SetKeys(Specials, ["a", "b"]) == ["<pad>", "<unk>", "a", "b"]
  {
    var ts: seq<Token> := ["a", "b"];
    assert ts[..1] == ["a"];
    assert ts[..1][..0] == [];
    assert "a" !in Specials && "b" != "a" && "b" !in Specials;
    assert SetKeys(Specials, ["a"]) == SetKey(Specials, "a") == ["<pad>", "<unk>", "a"];
    assert SetKeys(Specials, ts) == SetKey(["<pad>", "<unk>", "a"], "b");
  }

  /** Any corpus whose scan yields the example tokens gets the example vocabulary. */
  lemma VocabOfExampleStream(sentences: seq<string>, tokenize: Tokenizer)
    requires Stream(sentences, tokenize) == ["a", "a", "a", "b", "b", "c"]
    ensures BuildVocab(sentences, tokenize, 4) == Vocab(["<pad>", "<unk>", "a", "b"], Some(1))
  {
    TopOfExampleStream(sentences, tokenize);
    ExampleKeys();
  }

  /** `build_vocab(["a a a", "b b", "c"], str.split, 4)` is `{<pad>: 0, <unk>: 1, a: 2, b: 3}`. */
  lemma VocabExample()
    ensures BuildVocab(Corpus3, Whitespace, 4) == Vocab(["<pad>", "<unk>", "a", "b"], Some(1))
  {
    TokenizeExample();
    VocabOfExampleStream(Corpus3, Whitespace);
  }

  /** The vocabulary of `VocabExample`. */
  const ExampleVocab: Vocab := Vocab(["<pad>", "<unk>", "a", "b"], Some(1))

  /** `<pad>` is 0, `a` is 2, and the absent `c` falls back to 1. */
  lemma ExampleLookups()
    ensures Lookup(ExampleVocab, "<pad>") == Some(0)
    ensures Lookup(ExampleVocab, "a") == Some(2)
    ensures Lookup(ExampleVocab, "c") == Some(1)
  {
  }

  /** A one-sentence batch encodes to the single fitted row of that sentence. */
  lemma EncodeSingle(p: Preprocessor, sentence: string, ids: seq<int>)
    requires Lookup(p.vocab, PadToken).Some?
    requires SentenceIds(p, sentence) == Ok(ids)
    ensures Encode(p, [sentence]) == Ok([Fit(ids, Lookup(p.vocab, PadToken).value, p.seqLen)])
  {
    var r := Encode(p, [sentence]);
    assert [sentence][0] == sentence;
    assert r.Ok? && |r.value| == 1;
    assert r.value == [r.value[0]];
  }

  /** The ids of the two example sentences. */
  lemma ExampleIds(tokens: seq<Token>)
    requires tokens == ["a", "a", "c"] || tokens == ["a", "a", "a"]
    ensures tokens == ["a", "a", "c"] ==> LookupAll(ExampleVocab, tokens) == Ok([2, 2, 1])
    ensures tokens == ["a", "a", "a"] ==> LookupAll(ExampleVocab, tokens) == Ok([2, 2, 2])
  {
    ExampleLookups();
    var r := LookupAll(ExampleVocab, tokens);
    assert r.Ok? && |r.value| == 3;
    assert Some(r.value[0]) == Lookup(ExampleVocab, tokens[0]);
    assert Some(r.value[1]) == Lookup(ExampleVocab, tokens[1]);
    assert Some(r.value[2]) == Lookup(ExampleVocab, tokens[2]);
    assert r.value == [r.value[0], r.value[1], r.value[2]];
  }

  /** The tokens of "a a c". */
  lemma SplitExample()
    ensures Whitespace("a a c") == ["a", "a", "c"]
  {
    WordsSingle('c');
    WordsCons('a', "c");
    WordsCons('a', "a c");
    assert "a c" == ['a', ' '] + "c";
    assert "a a c" == ['a', ' '] + "a c";
  }

  /** `PadExample`, stated over variables. */
  lemma PadExampleFor(p: Preprocessor, sentence: string)
    requires p == Preprocessor(ExampleVocab, Some(Whitespace), 5) && sentence == "a a c"
    ensures Encode(p, [sentence]) == Ok([[0, 0, 2, 2, 1]])
  {
    ExampleLookups();
    SplitExample();
    ExampleIds(["a", "a", "c"]);
    EncodeSingle(p, sentence, [2, 2, 1]);
    FitExample();
  }

  /** Padding `[2, 2, 1]` to length 5. */
  lemma FitExample()
    ensures Fit([2, 2, 1], 0, 5) == [0, 0, 2, 2, 1]
  {
  }

  /** Encoding "a a c" to length 5 maps `c` to the unknown id and pads in front:
      `[0, 0, 2, 2, 1]`. */
  lemma PadExample()
    ensures Encode(Preprocessor(ExampleVocab, Some(Whitespace), 5), ["a a c"]) == Ok([[0, 0, 2, 2, 1]])
  {
    PadExampleFor(Preprocessor(ExampleVocab, Some(Whitespace), 5), "a a c");
  }

  /** Encoding "a a a" to length 2 keeps the first two ids: `[2, 2]`. */
  lemma TruncateExample()
    ensures Encode(Preprocessor(ExampleVocab, Some(Whitespace), 2), ["a a a"]) == Ok([[2, 2]])
  {
    ExampleLookups();
    WordsSingle('a');
    WordsCons('a', "a");
    WordsCons('a', "a a");
    assert "a a" == ['a', ' '] + "a";
    assert "a a a" == ['a', ' '] + "a a";
    assert Whitespace("a a a") == ["a", "a", "a"];
    ExampleIds(["a", "a", "a"]);
    EncodeSingle(Preprocessor(ExampleVocab, Some(Whitespace), 2), "a a a", [2, 2, 2]);
    assert Fit([2, 2, 2], 0, 2) == [2, 2];
  }

  /** Without `<pad>` and without a default index the call fails before any sentence is
      looked at, even for an empty batch. */
  lemma MissingPadExample()
    ensures Encode(Preprocessor(Vocab(["a"], None), Some(Whitespace), 3), []) == Err(KeyMissing("<pad>"))
  {
    assert "<pad>" !in ["a"];
  }

  /** Without a tokenizer an empty batch still encodes; a non-empty one fails. */
  lemma NoTokenizerExample()
    ensures Encode(Preprocessor(ExampleVocab, None, 3), []) == Ok([])
    ensures Encode(Preprocessor(ExampleVocab, None, 3), ["a"]) == Err(NoTokenizer)
  {
    ExampleLookups();
  }

  /** `CustomSaPreprocessor(vocab)` keeps sequences of 100 ids and, without the default
      word tokenizer, has no tokenizer. */
  lemma DefaultsExample(wordTokenizer: Option<Tokenizer>)
    ensures NewPreprocessor(ExampleVocab, wordTokenizer).seqLen == 100
    ensures NewPreprocessor(ExampleVocab, wordTokenizer).tokenizer == wordTokenizer
  {
  }

  /** The single token picked from the scan `a a <pad>` is `a`. */
  lemma PickOneExample(stream: seq<Token>, top: seq<Token>)
    requires stream == ["a", "a", "<pad>"]
    requires |top| == 1 && top[0] in stream
    requires forall i, t :: 0 <= i < |top| && t in stream && t !in top ==> Outranks(stream, top[i], t)
    ensures top == ["a"]
  {
    assert multiset(stream) == multiset{"a", "a", "<pad>"};
    var first := top[0];
    assert "a" in stream;
    assert "a" in top || Outranks(stream, first, "a");
  }

  /** The scan `a a <pad>` has two distinct tokens. */
  lemma SpecialStreamTypes(stream: seq<Token>)
    requires stream == ["a", "a", "<pad>"]
    ensures |Types(stream)| == 2
  {
    assert Types(stream) == {"a", "<pad>"};
  }

  /** Keying `a` after the specials. */
  lemma OneKey()
    ensures SetKeys(Specials, ["a"]) == ["<pad>", "<unk>", "a"]
  {
    var ts: seq<Token> := ["a"];
    assert ts[..0] == [];
    assert "a" !in Specials;
    assert SetKeys(Specials, ts) == SetKey(Specials, "a");
  }

  /** Any corpus whose scan is `a a <pad>` selects just `a` for `vocab_size = 3`. */
  lemma TopOfSpecialStream(sentences: seq<string>, tokenize: Tokenizer)
    requires Stream(sentences, tokenize) == ["a", "a", "<pad>"]
    ensures Top(sentences, tokenize, 3) == ["a"]
  {
    var stream := Stream(sentences, tokenize);
    MostCommonSelects(CountCorpus(sentences, tokenize), stream, 1);
    SpecialStreamTypes(stream);
    PickOneExample(stream, Top(sentences, tokenize, 3));
  }

  /** A literal `<pad>` in the corpus that is not among the selected tokens costs no
      place: the scan `a a <pad>` with `vocab_size = 3` still gives three keys. */
  lemma UnselectedSpecialExample(sentences: seq<string>, tokenize: Tokenizer)
    requires Stream(sentences, tokenize) == ["a", "a", "<pad>"]
    ensures BuildVocab(sentences, tokenize, 3).tokens == ["<pad>", "<unk>", "a"]
  {
    TopOfSpecialStream(sentences, tokenize);
    OneKey();
  }
}

=== FILE: vocabulary.dfy ===
/** The vocabulary `build_vocab` produces: an OrderedDict of `<pad>`, `<unk>` and the
    most common corpus tokens, turned into contiguous indices with a default of 1. */
module Vocabulary {
  import opened Wrappers
  import opened Corpus
  import opened Counting
  import opened Ranking

  /** A torchtext vocabulary: the token at position `i` has index `i`; a token that is
      not present looks up to `defaultIndex`, or fails when no default is set. */
  datatype Vocab = Vocab(tokens: seq<Token>, defaultIndex: Option<int>)

  /** `vocab[t]`; `None` is the lookup failure of a vocabulary without a default. */
  function Lookup(v: Vocab, t: Token): (r: Option<int>)
    ensures t in v.tokens ==> r.Some? && 0 <= r.value < |v.tokens| && v.tokens[r.value] == t
    ensures t !in v.tokens ==> r == v.defaultIndex
  {
    if t in v.tokens then Some(FirstIndex(v.tokens, t)) else v.defaultIndex
  }

  /** Over distinct tokens the indices are exactly the positions 0, 1, 2, ... */
  lemma LookupContiguous(v: Vocab)
    requires Distinct(v.tokens)
    ensures forall i :: 0 <= i < |v.tokens| ==> Lookup(v, v.tokens[i]) == Some(i)
  {
  }

  /** `od[t] = ...` seen on the key order: a new key goes last, an existing key stays. */
  function SetKey(keys: seq<Token>, t: Token): (r: seq<Token>)
    ensures Types(r) == Types(keys) + {t}
    ensures keys <= r
  {
    if t in keys then keys else keys + [t]
  }

  /** Assigning the tokens `ts` one after another. */
  function SetKeys(keys: seq<Token>, ts: seq<Token>): seq<Token>
  {
    if |ts| == 0 then keys
    else SetKey(SetKeys(keys, ts[..|ts| - 1]), ts[|ts| - 1])
  }

  /** `ts` with the tokens of `drop` filtered out, order kept. */
  function Without(ts: seq<Token>, drop: set<Token>): (r: seq<Token>)
    ensures |r| <= |ts|
    ensures forall t :: t in r <==> t in ts && t !in drop
  {
    if |ts| == 0 then []
    else Without(ts[..|ts| - 1], drop) + (if ts[|ts| - 1] in drop then [] else [ts[|ts| - 1]])
  }

  /** Filtering nothing out gives the sequence back. */
  lemma {:induction false} WithoutNothing(ts: seq<Token>, drop: set<Token>)
    requires forall t :: t in ts ==> t !in drop
    ensures Without(ts, drop) == ts
  {
    if |ts| > 0 {
      WithoutNothing(ts[..|ts| - 1], drop);
      assert ts == ts[..|ts| - 1] + [ts[|ts| - 1]];
    }
  }

  /** Filtering keeps the relative order, so a ranked sequence stays ranked. */
  lemma {:induction false} WithoutRanked(stream: seq<Token>, ts: seq<Token>, drop: set<Token>)
    requires Ranked(stream, ts)
    ensures Ranked(stream, Without(ts, drop))
  {
    if |ts| > 0 {
      var init := ts[..|ts| - 1];
      var last := ts[|ts| - 1];
      WithoutRanked(stream, init, drop);
      var w := Without(init, drop);
      if last !in drop {
        forall k | 0 <= k < |w| ensures Outranks(stream, w[k], last) {
          assert w[k] in w;
          var m :| 0 <= m < |init| && init[m] == w[k];
          assert ts[m] == w[k];
        }
        var r := w + [last];
        forall i, j | 0 <= i < j < |r| ensures Outranks(stream, r[i], r[j]) {
          if j < |w| {
            assert r[i] == w[i] && r[j] == w[j];
          }
        }
      } else {
        assert Without(ts, drop) == w;
      }
    }
  }

  /** Assigning distinct tokens into an OrderedDict appends, in order, those that were
      not keys yet; the others keep their old positions. */
  lemma {:induction false} SetKeysAppendsNew(keys: seq<Token>, ts: seq<Token>)
    requires Distinct(ts)
    ensures SetKeys(keys, ts) == keys + Without(ts, Types(keys))
  {
    if |ts| > 0 {
      var init := ts[..|ts| - 1];
      var last := ts[|ts| - 1];
      SetKeysAppendsNew(keys, init);
      assert last !in init by {
        forall k | 0 <= k < |init| ensures init[k] != last {
          assert ts[k] != ts[|ts| - 1];
        }
      }
      assert last in SetKeys(keys, init) <==> last in keys;
    }
  }

  /** The keys the OrderedDict starts with, in this order. */
  const Specials: seq<Token> := [PadToken, UnkToken]

  /** Keying ranked tokens after the two specials gives the specials followed by the
      tokens that are not specials, with no token twice. */
  lemma {:induction false} SpecialsThenRanked(stream: seq<Token>, top: seq<Token>)
    requires Ranked(stream, top)
    ensures SetKeys(Specials, top) == Specials + Without(top, {PadToken, UnkToken})
    ensures Distinct(SetKeys(Specials, top))
    ensures Ranked(stream, SetKeys(Specials, top)[2..])
  {
    RankedDistinct(stream, top);
    SetKeysAppendsNew(Specials, top);
    assert Types(Specials) == {PadToken, UnkToken};
    var rest := Without(top, {PadToken, UnkToken});
    WithoutRanked(stream, top, {PadToken, UnkToken});
    RankedDistinct(stream, rest);
    var tokens := Specials + rest;
    assert tokens[2..] == rest;
    forall i, j | 0 <= i < j < |tokens| ensures tokens[i] != tokens[j] {
      if i >= 2 {
        assert tokens[i] == rest[i - 2] && tokens[j] == rest[j - 2];
      } else if j >= 2 {
        assert tokens[j] == rest[j - 2] && tokens[j] in rest;
      }
    }
  }

  /** The tokens `build_vocab` selects: `most_common(vocab_size - 2)` of the corpus count. */
  function Top(sentences: seq<string>, tokenize: Tokenizer, vocabSize: int): seq<Token>
  {
    MostCommon(CountCorpus(sentences, tokenize), vocabSize - 2)
  }

  lemma {:induction false} TopRanked(sentences: seq<string>, tokenize: Tokenizer, vocabSize: int)
    ensures Ranked(Stream(sentences, tokenize), Top(sentences, tokenize, vocabSize))
    ensures |Top(sentences, tokenize, vocabSize)| <= Max(vocabSize - 2, 0)
    ensures forall t :: t in Top(sentences, tokenize, vocabSize) ==> t in Stream(sentences, tokenize)
  {
    MostCommonSelects(CountCorpus(sentences, tokenize), Stream(sentences, tokenize), vocabSize - 2);
  }

  /** `build_vocab(sentences, tokenizer, vocab_size)`: count the corpus, take the
      `vocab_size - 2` most common tokens, and key them after `<pad>` and `<unk>`;
      misses look up to 1. */
  function BuildVocab(sentences: seq<string>, tokenize: Tokenizer, vocabSize: int): (v: Vocab)
    ensures |v.tokens| >= 2 && v.tokens[0] == PadToken && v.tokens[1] == UnkToken
    ensures Lookup(v, PadToken) == Some(0) && Lookup(v, UnkToken) == Some(1)
    ensures forall t :: t !in v.tokens ==> Lookup(v, t) == Some(1)
    ensures Distinct(v.tokens)
    ensures |v.tokens| <= Max(vocabSize, 2)
    ensures forall i :: 2 <= i < |v.tokens| ==> v.tokens[i] in Stream(sentences, tokenize)
  {
    var top := Top(sentences, tokenize, vocabSize);
    var stream := Stream(sentences, tokenize);
    TopRanked(sentences, tokenize, vocabSize);
    SpecialsThenRanked(stream, top);
    var tokens := SetKeys(Specials, top);
    assert forall i :: 2 <= i < |tokens| ==> tokens[i] in stream by {
      forall i | 2 <= i < |tokens| ensures tokens[i] in stream {
        assert tokens[i] in Without(top, {PadToken, UnkToken});
        assert tokens[i] in top;
      }
    }
    Vocab(tokens, Some(1))
  }

  /** Every corpus token missing from `tokens` is outranked by every key after the specials. */
  ghost predicate KeepsBest(stream: seq<Token>, tokens: seq<Token>) {
    forall i, t :: 2 <= i < |tokens| && t in stream && t !in tokens ==> Outranks(stream, tokens[i], t)
  }

  /** Keying a best-first selection after the specials keeps only winners after them. */
  lemma {:induction false} SpecialsKeepBest(stream: seq<Token>, top: seq<Token>)
    requires Ranked(stream, top)
    requires forall i, t :: 0 <= i < |top| && t in stream && t !in top ==> Outranks(stream, top[i], t)
    ensures KeepsBest(stream, SetKeys(Specials, top))
  {
    SpecialsThenRanked(stream, top);
    SetKeysTypes(Specials, top);
    var tokens := SetKeys(Specials, top);
    forall i, t | 2 <= i < |tokens| && t in stream && t !in tokens
      ensures Outranks(stream, tokens[i], t)
    {
      assert tokens[i] in Without(top, {PadToken, UnkToken});
      var m :| 0 <= m < |top| && top[m] == tokens[i];
      assert t !in Types(tokens);
      assert t !in top;
    }
  }

  /** The keys after the two specials come best first, and every corpus token left out
      of the vocabulary is outranked by, hence no more frequent than, every one kept. */
  lemma {:induction false} BuildVocabRanked(sentences: seq<string>, tokenize: Tokenizer, vocabSize: int)
    ensures Ranked(Stream(sentences, tokenize), BuildVocab(sentences, tokenize, vocabSize).tokens[2..])
    ensures KeepsBest(Stream(sentences, tokenize), BuildVocab(sentences, tokenize, vocabSize).tokens)
    ensures forall i, t :: (2 <= i < |BuildVocab(sentences, tokenize, vocabSize).tokens| &&
                            t in Stream(sentences, tokenize) &&
                            t !in BuildVocab(sentences, tokenize, vocabSize).tokens) ==>
              Occurrences(Stream(sentences, tokenize), BuildVocab(sentences, tokenize, vocabSize).tokens[i]) >=
              Occurrences(Stream(sentences, tokenize), t)
  {
    var stream := Stream(sentences, tokenize);
    var top := Top(sentences, tokenize, vocabSize);
    var tokens := BuildVocab(sentences, tokenize, vocabSize).tokens;
    assert tokens == SetKeys(Specials, top);
    MostCommonSelects(CountCorpus(sentences, tokenize), stream, vocabSize - 2);
    SpecialsThenRanked(stream, top);
    SpecialsKeepBest(stream, top);
    KeepsBestCounts(stream, tokens);
  }

  lemma KeepsBestCounts(stream: seq<Token>, tokens: seq<Token>)
    requires KeepsBest(stream, tokens)
    ensures forall i, t :: (2 <= i < |tokens| && t in stream && t !in tokens) ==>
              Occurrences(stream, tokens[i]) >= Occurrences(stream, t)
  {
  }

  lemma {:induction false} SetKeysTypes(keys: seq<Token>, ts: seq<Token>)
    ensures Types(SetKeys(keys, ts)) == Types(keys) + Types(ts)
  {
    if |ts| > 0 {
      SetKeysTypes(keys, ts[..|ts| - 1]);
      assert ts == ts[..|ts| - 1] + [ts[|ts| - 1]];
      assert Types(ts) == Types(ts[..|ts| - 1]) + {ts[|ts| - 1]};
    }
  }

  lemma {:induction false} SubsetCard(a: set<Token>, b: set<Token>)
    requires a <= b
    ensures |a| <= |b|
  {
    if a != {} {
      var x :| x in a;
      SubsetCard(a - {x}, b - {x});
    }
  }

  /** A subset as large as its superset is the whole set. */
  lemma {:induction false} SubsetFull(a: set<Token>, b: set<Token>)
    requires a <= b && |a| == |b|
    ensures a == b
  {
    if a != b {
      var x :| x in b && x !in a;
      SubsetCard(a, b - {x});
    }
  }

  /** Vocabulary size: exactly the two specials when `vocab_size < 2`; otherwise, for a
      corpus without the special strings, 2 plus the smaller of `vocab_size - 2` and the
      number of distinct tokens; and when `vocab_size - 2` covers the distinct tokens,
      every corpus token is in the vocabulary. */
  lemma {:induction false} BuildVocabSize(sentences: seq<string>, tokenize: Tokenizer, vocabSize: int)
    ensures vocabSize < 2 ==> BuildVocab(sentences, tokenize, vocabSize).tokens == Specials
    ensures vocabSize >= 2 && PadToken !in Stream(sentences, tokenize) && UnkToken !in Stream(sentences, tokenize) ==>
              |BuildVocab(sentences, tokenize, vocabSize).tokens| ==
              2 + Min(vocabSize - 2, |Types(Stream(sentences, tokenize))|)
    ensures vocabSize - 2 >= |Types(Stream(sentences, tokenize))| ==>
              forall t :: t in Stream(sentences, tokenize) ==> t in BuildVocab(sentences, tokenize, vocabSize).tokens
  {
    var stream := Stream(sentences, tokenize);
    var top := Top(sentences, tokenize, vocabSize);
    var tokens := BuildVocab(sentences, tokenize, vocabSize).tokens;
    MostCommonSelects(CountCorpus(sentences, tokenize), stream, vocabSize - 2);
    SpecialsThenRanked(stream, top);
    SetKeysTypes(Specials, top);
    assert tokens == SetKeys(Specials, top);
    if vocabSize < 2 {
      assert top == [];
      assert Without(top, {PadToken, UnkToken}) == [];
    }
    if PadToken !in stream && UnkToken !in stream {
      WithoutNothing(top, {PadToken, UnkToken});
    }
    if vocabSize - 2 >= |Types(stream)| {
      DistinctTypes(top);
      SubsetFull(Types(top), Types(stream));
      forall t | t in stream ensures t in tokens {
        assert t in Types(top);
      }
    }
  }

  /** Distinct keys made of the specials and exactly the corpus tokens number as many
      as the distinct tokens of both. */
  lemma {:induction false} SpecialsAndCorpus(tokens: seq<Token>, stream: seq<Token>)
    requires Distinct(tokens) && |tokens| >= 2 && tokens[0] == PadToken && tokens[1] == UnkToken
    requires forall i :: 2 <= i < |tokens| ==> tokens[i] in stream
    requires forall t :: t in stream ==> t in tokens
    ensures |tokens| == |Types(stream) + {PadToken, UnkToken}|
  {
    assert Types(tokens) == Types(stream) + {PadToken, UnkToken} by {
      forall t | t in tokens ensures t in Types(stream) + {PadToken, UnkToken} {
        var i :| 0 <= i < |tokens| && tokens[i] == t;
      }
    }
    DistinctTypes(tokens);
  }

  /** When `vocab_size - 2` covers every distinct corpus token, the vocabulary is the
      specials together with the corpus tokens, each once; so a corpus that contains the
      literal `<pad>` or `<unk>` yields fewer than `vocab_size` entries. */
  lemma {:induction false} ReservedInCorpusShrinks(sentences: seq<string>, tokenize: Tokenizer, vocabSize: int)
    requires vocabSize - 2 >= |Types(Stream(sentences, tokenize))|
    ensures |BuildVocab(sentences, tokenize, vocabSize).tokens| ==
            |Types(Stream(sentences, tokenize)) + {PadToken, UnkToken}|
    ensures PadToken in Stream(sentences, tokenize) || UnkToken in Stream(sentences, tokenize) ==>
              |BuildVocab(sentences, tokenize, vocabSize).tokens| < vocabSize
  {
    var stream := Stream(sentences, tokenize);
    var tokens := BuildVocab(sentences, tokenize, vocabSize).tokens;
    BuildVocabSize(sentences, tokenize, vocabSize);
    SpecialsAndCorpus(tokens, stream);
    var types := Types(stream);
    if PadToken in stream {
      assert types + {PadToken, UnkToken} == types + {UnkToken};
    } else if UnkToken in stream {
      assert types + {PadToken, UnkToken} == types + {PadToken};
    }
  }

  /** Distinct selected tokens with the two specials added number two more than the
      selection, less one for each special already selected. */
  lemma {:induction false} WithSpecialsSize(top: seq<Token>)
    requires Distinct(top)
    ensures |Types(top) + {PadToken, UnkToken}| ==
            |top| + (if PadToken in top then 0 else 1) + (if UnkToken in top then 0 else 1)
  {
    DistinctTypes(top);
    var types := Types(top);
    if PadToken in top && UnkToken in top {
      assert types + {PadToken, UnkToken} == types;
    } else if PadToken in top {
      assert types + {PadToken, UnkToken} == types + {UnkToken};
    } else if UnkToken in top {
      assert types + {PadToken, UnkToken} == types + {PadToken};
    } else {
      assert types + {PadToken, UnkToken} == types + {PadToken} + {UnkToken};
    }
  }

  /** Keys assigned without repeats after two keys holding exactly the specials number
      as many as the specials together with the assigned tokens. */
  lemma {:induction false} SetKeysSize(keys: seq<Token>, ts: seq<Token>)
    requires Distinct(SetKeys(keys, ts)) && Types(keys) == {PadToken, UnkToken}
    ensures |SetKeys(keys, ts)| == |Types(ts) + {PadToken, UnkToken}|
  {
    SetKeysTypes(keys, ts);
    DistinctTypes(SetKeys(keys, ts));
    assert Types(keys) + Types(ts) == Types(ts) + {PadToken, UnkToken};
  }

  /** A selection of `min(n, #types)` distinct tokens, keyed after the specials, gives
      `n + 2` keys exactly when there were enough types and no special was selected. */
  lemma {:induction false} SizeReached(top: seq<Token>, n: int, types: nat)
    requires Distinct(top) && n >= 0 && |top| == Min(n, types)
    ensures |Types(top) + {PadToken, UnkToken}| == n + 2 <==>
            n <= types && PadToken !in top && UnkToken !in top
  {
    WithSpecialsSize(top);
  }

  /** The selection has no token twice and, for `vocab_size >= 2`, holds
      `min(vocab_size - 2, #distinct tokens)` tokens. */
  lemma {:induction false} TopSize(sentences: seq<string>, tokenize: Tokenizer, vocabSize: int)
    requires vocabSize >= 2
    ensures Distinct(Top(sentences, tokenize, vocabSize))
    ensures |Top(sentences, tokenize, vocabSize)| == Min(vocabSize - 2, |Types(Stream(sentences, tokenize))|)
  {
    MostCommonSelects(CountCorpus(sentences, tokenize), Stream(sentences, tokenize), vocabSize - 2);
  }

  /** In general the vocabulary is the two specials together with the selected tokens,
      each once; it reaches `vocab_size` exactly when the corpus has at least
      `vocab_size - 2` distinct tokens and neither `<pad>` nor `<unk>` is among those
      selected. */
  lemma {:induction false} SelectedSpecialsShrink(sentences: seq<string>, tokenize: Tokenizer, vocabSize: int)
    ensures |BuildVocab(sentences, tokenize, vocabSize).tokens| ==
            |Types(Top(sentences, tokenize, vocabSize)) + {PadToken, UnkToken}|
    ensures vocabSize >= 2 ==>
              (|BuildVocab(sentences, tokenize, vocabSize).tokens| == vocabSize <==>
               vocabSize - 2 <= |Types(Stream(sentences, tokenize))| &&
               PadToken !in Top(sentences, tokenize, vocabSize) &&
               UnkToken !in Top(sentences, tokenize, vocabSize))
  {
    var stream := Stream(sentences, tokenize);
    var top := Top(sentences, tokenize, vocabSize);
    var tokens := BuildVocab(sentences, tokenize, vocabSize).tokens;
    assert tokens == SetKeys(Specials, top);
    assert Distinct(tokens);
    assert Types(Specials) == {PadToken, UnkToken};
    SetKeysSize(Specials, top);
    if vocabSize >= 2 {
      TopSize(sentences, tokenize, vocabSize);
      SizeReached(top, vocabSize - 2, |Types(stream)|);
    }
  }
}

=== FILE: wrappers.dfy ===
/** Wrappers shared by the model: `Option` for a lookup that may
    have no answer, `Result` for an operation that may raise. */
module Wrappers {
  datatype Option<+T> = None | Some(value: T)

  datatype Result<+T, +E> = Ok(value: T) | Err(error: E)
}
